=== FILE: README.md ===
# Chat state and follow-up split: a Dafny model

This project models the logic inside the browser chat client of a
financial research assistant. The model has two parts.

- **The assistant message component** (`components/messages/assistant-message.tsx`).
  Each part of an assistant message is dispatched on its type tag.
  - A text part is cut into non-blank lines.
  - The first line that starts with "follow-up questions", in any letter case, is the heading.
  - The lines before the heading become the answer text.
  - The lines after it lose their `N.` ordinal markers and become clickable question buttons.
  - A reasoning part shows the duration recorded under the key `<message id>-<index>`, and reports new durations under that key.
  - A tool part renders as a result when its state is `output-available`, and as a call otherwise.
- **The chat page** (`app/page.tsx`). The page's React state and refs are one record, `ChatPage.Page`, and each effect or handler is a function on it:
  - the first render reads local storage;
  - the mount effect installs what was read;
  - the persistence effect writes the live messages and durations through to local storage;
  - `handleDurationChange` upserts one entry of the duration table;
  - the welcome effect inserts the greeting once;
  - `clearChat` empties the conversation.

  The page also gates its input form on the stream status: the input is disabled while streaming, the stop control replaces the send button, the send button is disabled on blank input, and Enter submits.

The browser, the clock and failures are parameters:
- `inBrowser` stands for `typeof window !== "undefined"`;
- `now` stands for `Date.now()`;
- `writeFails` stands for `localStorage.setItem` throwing.

The JavaScript string operations the code relies on are modelled in `JsString`:
- `trim()` and the regular-expression class `\s` use the ECMAScript WhiteSpace and LineTerminator characters;
- `\d` is the ASCII digits;
- `split("\n")` always gives at least one piece;
- `String.length` counts UTF-16 code units.

The regular-expression replacements are specified by their match positions:
- `MarkerAt` for `/^\s*\d+\./`;
- `ColonTail` for `/:\s*$/`.

Each match is proved unique.

Follow-up detection is narrow:
- there is one heading phrase, "follow-up questions";
- it must open the line, with no leading whitespace, and letter case is ignored;
- the answer text above the heading is not trimmed;
- a text with no such line is rendered raw and unchanged.

`FollowUpExamples.QualifiedHeadingStaysPlain` shows that a line reading "Relevant follow-up questions:" is not a heading, so the whole text stays plain.

Modules:
- `Wrappers`: `Option`.
- `Seqs`: filter and map with their laws.
- `JsString`: the JavaScript string semantics above.
- `ChatTypes`: messages, parts, status.
- `FollowUps`: the text-part split.
- `AssistantMessage`: the part dispatch.
- `Storage`: local storage with load and save.
- `ChatPage`: the page state and its transitions.
- `FollowUpExamples`: worked instances of the split.

## Model

| member | source | states |
|---|---|---|
| FollowUps.IsNonBlank | components/messages/assistant-message.tsx:37 | a line passes the trim filter iff it is not all whitespace |
| FollowUps.IsHeading | components/messages/assistant-message.tsx:41 | a heading line is at least as long as the phrase and opens with `f` or `F` |
| FollowUps.NonBlankLines | components/messages/assistant-message.tsx:37 | every kept line is non-blank and newline-free and is a piece of the split; every non-blank piece is kept |
| FollowUps.FindHeading | components/messages/assistant-message.tsx:40-42 | none exactly when no line is a heading; otherwise the index of a heading line with no heading before it |
| FollowUps.SplitAtHeading | components/messages/assistant-message.tsx:45-55 | no heading iff no line qualifies; otherwise before + [heading] + after is the line list, the heading qualifies and no earlier line does |
| FollowUps.HeadingIsNonBlank | components/messages/assistant-message.tsx:37-42 | a heading line starts with a non-space, so the blank-line filter never drops it |
| FollowUps.MarkerIsUnique | components/messages/assistant-message.tsx:58 | the marker regex can match only at the end of the leading whitespace run and the following digit run |
| FollowUps.StripMarker | components/messages/assistant-message.tsx:58 | when the line opens with whitespace, digits and a dot, the result is what follows the dot, left-trimmed; with no such marker the line is unchanged |
| FollowUps.CleanQuestion | components/messages/assistant-message.tsx:58 | a cleaned question is empty or has no whitespace at either end |
| FollowUps.Questions | components/messages/assistant-message.tsx:57-59 | at most one question per line; each is non-empty and trimmed and is the cleaned form of some line; every line whose cleaned form is non-empty contributes it |
| FollowUps.QuestionsConcat | components/messages/assistant-message.tsx:57-59 | the questions of concatenated line lists are the concatenated questions, so order is kept |
| FollowUps.QuestionsSingleton | components/messages/assistant-message.tsx:57-59 | one line yields its cleaned text, or nothing when that is empty |
| FollowUps.HeadingLabel | components/messages/assistant-message.tsx:70 | when the heading ends in a colon followed only by whitespace, it is cut just after the colon; otherwise it is shown unchanged |
| FollowUps.ButtonLabel | components/messages/assistant-message.tsx:84 | the caption `n. q` parses back to exactly the number n and the question q, and for n ≥ 1 its number has no leading zero |
| FollowUps.Buttons | components/messages/assistant-message.tsx:75-84 | one button per question, in order; button k sends question k and its caption parses back to (k+1, question k) |
| FollowUps.PreText | components/messages/assistant-message.tsx:53-66 | omitted exactly when there are no lines before the heading; otherwise splitting it on newlines gives back those lines |
| FollowUps.RenderText | components/messages/assistant-message.tsx:36-90 | the plain view is chosen iff no line of the text is a heading, and then it shows the raw text unchanged |
| FollowUps.RenderTextSegments | components/messages/assistant-message.tsx:53-66 | with a heading: the answer is omitted iff the heading is the first non-blank line, the answer is the earlier lines joined by newlines and splits back into them, and there is exactly one button per question of the later lines, in order |
| FollowUps.RenderFromSegments | components/messages/assistant-message.tsx:53-84 | given the cut at the heading, the view shows the cleaned heading, exactly the buttons of the later lines' questions, and the earlier lines joined by newlines, omitted when there are none |
| FollowUps.BeforeHeading | components/messages/assistant-message.tsx:53 | nothing precedes the heading iff the first line is the heading, and the earlier lines are as non-blank and newline-free as all the lines |
| FollowUps.HeadingHasNoMarker | components/messages/assistant-message.tsx:40-58 | a heading line carries no ordinal marker, so cleaning it only trims it |
| FollowUps.LaterHeadingBecomesQuestion | components/messages/assistant-message.tsx:40-59 | only the first heading counts: a later heading-like line becomes a question |
| FollowUpExamples.RenderedAnswer | components/messages/assistant-message.tsx:35-90 | a four-line answer renders as its first line, the heading, and two buttons captioned with the numbered lines that send the bare questions |
| FollowUpExamples.QualifiedHeadingStaysPlain | components/messages/assistant-message.tsx:40-49 | "Relevant follow-up questions:" is not a heading, so the whole text is rendered plain |
| FollowUpExamples.HeadingCaseInsensitive | components/messages/assistant-message.tsx:41 | "Follow-up Questions:" is a heading, whatever its letter case |
| FollowUpExamples.HeadingMustOpenTheLine | components/messages/assistant-message.tsx:41 | leading whitespace, a qualifier or a missing hyphen each stop a line being a heading |
| FollowUpExamples.HeadingLabelExamples | components/messages/assistant-message.tsx:70 | trailing whitespace after the colon is dropped; a heading without a colon is kept |
| FollowUpExamples.MarkerRemoved | components/messages/assistant-message.tsx:58 | "1. Why?" cleans to "Why?" |
| FollowUpExamples.OnlyFirstMarkerRemoved | components/messages/assistant-message.tsx:58 | "1. 2. Why?" cleans to "2. Why?" |
| FollowUpExamples.ParenthesisIsNotAMarker | components/messages/assistant-message.tsx:58 | "1) Why?" is kept whole |
| AssistantMessage.DurationKey | components/messages/assistant-message.tsx:31 | the key decodes: it opens with the message id, its last `-` sits right after the id, and the rest reads back as the part index |
| AssistantMessage.DurationKeyInjective | components/messages/assistant-message.tsx:31 | two parts share a duration key only when they have the same message id and the same index |
| AssistantMessage.IsStreaming | components/messages/assistant-message.tsx:27-30 | a streaming part is a real part of the message, and it is the last one |
| AssistantMessage.IsToolKind | components/messages/assistant-message.tsx:110-113 | no tool type is `text` or `reasoning`, so a tool part never falls into an earlier branch |
| AssistantMessage.LookupDuration | components/messages/assistant-message.tsx:32 | a duration is found iff a table was passed and it holds the key, and then it is the stored value |
| AssistantMessage.RenderPart | components/messages/assistant-message.tsx:27-131 | text goes through the follow-up split; reasoning gets the streaming flag, the stored duration and a report key iff a callback exists; a tool part is a result iff its state is `output-available`; any other type renders nothing; every rendered part is keyed `<id>-<i>` |
| AssistantMessage.RenderMessage | components/messages/assistant-message.tsx:26-32 | one view per part; rendered parts have pairwise distinct keys; only the last part of the last message can stream, and only while the status is streaming |
| Storage.Load | app/page.tsx:36-53 | outside a browser, on a read that throws, or with a missing, empty or unparseable item, the result is the empty snapshot; a parsed item supplies each present field, and the empty value for each missing one |
| Storage.FailedReadIsMissingItem | app/page.tsx:40-52 | a read that throws loads exactly as a storage without the item does |
| Storage.Save | app/page.tsx:55-66 | outside a browser, or when the write throws, storage is unchanged; otherwise the key holds exactly the given messages and durations and no other key changes |
| Storage.SaveThenLoad | app/page.tsx:36-66 | a successful save followed by a load returns exactly what was saved |
| Storage.FailedSaveIsInvisible | app/page.tsx:59-65 | a failed or out-of-browser save is invisible to a later load |
| ChatPage.FirstRender | app/page.tsx:69-77 | storage is read, a throwing read included; the initial and live messages are the stored ones; durations start empty; not yet on the client and no greeting shown |
| ChatPage.Mount | app/page.tsx:84-88 | the page is on the client with the stored messages and durations live; nothing else changes |
| ChatPage.Persist | app/page.tsx:90-94 | nothing happens before the client flag is set; afterwards a later load returns the live snapshot, and a failed write or a page outside a browser leaves storage unchanged; only storage changes |
| ChatPage.DurationChange | app/page.tsx:96-102 | the key maps to the new duration; the key set grows by the key only; other entries are kept; nothing else changes |
| ChatPage.DurationLastWriteWins | app/page.tsx:96-102 | two updates of one key equal the second update alone |
| ChatPage.DurationChangesCommute | app/page.tsx:96-102 | updates of different keys commute |
| ChatPage.ReportedDurationIsShown | app/page.tsx:96-102 | a duration a reasoning part reports under its callback key is the one that part looks up on the next render |
| ChatPage.WelcomeMessage | app/page.tsx:111-120 | one assistant message with a single text part holding the greeting, with id `welcome-<now>` |
| ChatPage.WelcomeDue | app/page.tsx:106-110 | when due, the page is on the client and the initial conversation is empty; once the flag is up it is never due |
| ChatPage.WelcomeEffect | app/page.tsx:105-125 | only when on the client, started empty and not yet shown: the messages become the greeting, it is saved with empty durations, the flag is raised and no other field changes; otherwise nothing changes |
| ChatPage.WelcomeEffectIdempotent | app/page.tsx:105-125 | running the welcome effect twice equals running it once |
| ChatPage.ClearChat | app/page.tsx:139-146 | messages and durations become empty and a later load returns the empty snapshot, and a failed write or a page outside a browser leaves storage unchanged; the once-flag is kept |
| ChatPage.Step | app/page.tsx:71-77 | no event changes the initial messages or lowers the once-flag |
| ChatPage.WelcomeAtMostOnce | app/page.tsx:104-125 | along any run of events, the greeting is inserted at most once, and never when the flag is already up or the conversation did not start empty |
| ChatPage.SchemaAccepts | app/page.tsx:22-27 | an accepted message has between 1 and 2000 characters |
| ChatPage.SchemaBounds | app/page.tsx:22-27 | an accepted message has 1 to 2000 characters; any of 1 to 1000 characters is accepted; for text without surrogate pairs, acceptance is exactly 1 to 2000 characters |
| ChatPage.InputDisabled | app/page.tsx:264 | whenever the input is disabled, the stop control is shown |
| ChatPage.StopShown | app/page.tsx:275-276 | the stop control shows in every status except ready and error |
| ChatPage.SubmitDisabled | app/page.tsx:303 | the send button is disabled iff the input is all whitespace |
| ChatPage.HandleSubmit | app/page.tsx:134-137 | a value is sent, unchanged, iff the schema accepts it, and then the input is reset; otherwise the input keeps its value |
| ChatPage.Interact | app/page.tsx:264-303 | nothing is sent while streaming; a click sends iff the stop control is hidden, the trimmed input is non-empty and the schema accepts it; Enter without Shift sends iff not streaming and the schema accepts it |
| ChatPage.EnterSendsBlankInput | app/page.tsx:267-303 | a value of two spaces disables the button, yet Enter sends it |
| ChatPage.EnterSendsWhileSubmitted | app/page.tsx:264-276 | while a request is submitted, the stop control shows but Enter still sends |
| JsString.Trim | app/page.tsx:303 | the result has no whitespace at either end and is a slice of the input with only whitespace cut from both sides |
| JsString.TrimIdempotent | app/page.tsx:303 | trimming twice is trimming once |
| JsString.TrimEmptyIffBlank | components/messages/assistant-message.tsx:37 | the trimmed text is empty iff the text is all whitespace |
| JsString.Split | components/messages/assistant-message.tsx:37 | there is always at least one piece, and no piece contains the separator |
| JsString.NatToString | components/messages/assistant-message.tsx:84 | the decimal digits of n, with a leading zero only for 0 itself |
| JsString.JoinSplit | components/messages/assistant-message.tsx:37 | joining the pieces of a split with the separator gives back the text |
| JsString.SplitJoin | components/messages/assistant-message.tsx:53 | splitting a separator-free join gives back the pieces |
| JsString.Join | components/messages/assistant-message.tsx:53 | no pieces join to the empty text; the join opens with the first piece; a join without the separator comes from at most one piece |
| JsString.TrimStart | components/messages/assistant-message.tsx:58 | the result is a suffix of the text, only whitespace is cut from the front, and it does not start with whitespace |
| JsString.TrimEnd | components/messages/assistant-message.tsx:70 | the result is a prefix of the text, only whitespace is cut from the end, and it does not end with whitespace |
| JsString.StartsWith | components/messages/assistant-message.tsx:41 | a text that starts with the prefix is the prefix followed by the rest of the text |
| JsString.StartsWithAppend | components/messages/assistant-message.tsx:41 | the prefix followed by anything starts with the prefix |
| Seqs.Filter | components/messages/assistant-message.tsx:37 | the kept elements all pass, all come from the input, and every passing element is kept |
| Seqs.FilterConcat | components/messages/assistant-message.tsx:59 | filtering a concatenation is the concatenation of the filtered parts, so the order is kept |
| Seqs.FilterSingleton | components/messages/assistant-message.tsx:59 | one element is kept exactly when it passes |
| Seqs.Map | components/messages/assistant-message.tsx:57 | the same length, with the function applied at each position |
| Seqs.MapConcat | components/messages/assistant-message.tsx:57 | mapping a concatenation is the concatenation of the mapped parts |
| JsString.LowerAscii | components/messages/assistant-message.tsx:41 | the same length, with each letter A to Z lowered and every other character kept |
| JsString.ParseNatToString | components/messages/assistant-message.tsx:84 | a printed index reads back as the same number |
| JsString.JsLength | app/page.tsx:22-27 | the UTF-16 length is between the character count and twice it |
| JsString.JsLengthBounds | app/page.tsx:22-27 | the UTF-16 length lies between the character count and twice it, and equals the character count without supplementary characters |

## Left out

- JSX, CSS classes, icons and layout: presentation only. The model keeps what each branch renders, not how.
- The `useChat` transport, `sendMessage` and `stop()`: they call into the chat library, which is not part of this model. `ChannelUpdate` events stand for the library replacing the message list.
- `JSON.stringify` and `JSON.parse` are not modelled. Local storage holds an abstract `Stored` value, and a saved snapshot is assumed to read back equal.
- Non-array truthy `messages` fields and non-object truthy `durations` fields are not modelled. A parsed item's fields are either absent or of the right type.
- Durations are `int`. JavaScript numbers, NaN and infinities are not modelled, because the code only stores and reads them back.
- Strings are sequences of Unicode scalar values, so a JavaScript string holding a lone UTF-16 surrogate cannot be represented. `JsString.JsLength` and the message length rule count only well-formed text.
- `toLowerCase()` is modelled for ASCII letters only. Unicode case mapping needs tables that are not part of this model.
- The toast after clearing, `VoiceButton` and its transcript append, and `console.error` are side effects with no state the core reads.
- `ReasoningPart`, `ToolCall`, `ToolResult` and `Response` are child components, which are not part of this model. Only the arguments passed to them are modelled.
- The `onFollowupClick` wiring through `MessageWall` is not part of this model. A button records the question it sends.
- The order in which React runs effects within one commit is not modelled. Effects are separate events, in any order.
- `form.reset()` and the controlled input appear only through `FormResult.value`.
- `prompts.ts`, `app/layout.tsx` and everything in `config.ts` other than the branding constants and the greeting: configuration text with no logic.
- The chat status is one of submitted, streaming, ready and error. An absent status is `None` in `AssistantMessage`.

=== FILE: assistantmessage.dfy ===
/** The assistant-message component: how each part of one assistant message
    is dispatched for display, under which key its duration is stored, and
    whether it counts as still streaming. */
module AssistantMessage {
  import opened Wrappers
  import opened JsString
  import opened ChatTypes
  import FollowUps

  /** `${message.id}-${i}`: the duration key of part `i`, also its render key.
      The key decodes again: it opens with the message id, its last `-` sits
      right after the id, and what follows is the index in decimal. */
  function DurationKey(messageId: string, i: nat): (key: string)
    ensures |key| > |messageId| && key[..|messageId|] == messageId
    ensures LastIndexOf(key, '-') == Some(|messageId|)
    ensures AllDigits(key[|messageId| + 1..]) && ParseNat(key[|messageId| + 1..]) == i
  {
    var d := NatToString(i);
    var key := messageId + "-" + d;
    assert '-' !in d by {
      forall k | 0 <= k < |d| ensures d[k] != '-' { assert IsDigit(d[k]); }
    }
    assert key == messageId + ['-'] + d;
    LastIndexOfAfter(messageId, '-', d);
    assert key[|messageId| + 1..] == d;
    ParseNatToString(i);
    key
  }

  /** The index is printed without a `-`, so the last `-` of a key separates
      the message id from the index: different (message, part) pairs never
      share a duration key. */
  lemma DurationKeyInjective(id1: string, i1: nat, id2: string, i2: nat)
    requires DurationKey(id1, i1) == DurationKey(id2, i2)
    ensures id1 == id2 && i1 == i2
  {
  }

  /** `status === "streaming" && isLastMessage && i === message.parts.length - 1`. */
  predicate IsStreaming(status: Option<Status>, isLastMessage: bool, i: nat, partCount: nat)
    ensures IsStreaming(status, isLastMessage, i, partCount) ==> i < partCount && i + 1 == partCount
  {
    status == Some(Streaming) && isLastMessage && i as int == partCount as int - 1
  }

  /** A tool part: its type is `tool-<name>` or exactly `dynamic-tool`. No
      tool type is `text` or `reasoning`, so the order of the type tests does
      not matter. */
  predicate IsToolKind(kind: string)
    ensures IsToolKind(kind) ==> kind != "text" && kind != "reasoning"
  {
    assert "reasoning"[..5] != "tool-" by { assert "reasoning"[0] == 'r'; }
    StartsWith(kind, "tool-") || kind == "dynamic-tool"
  }

  const OUTPUT_AVAILABLE: string := "output-available"

  /** What one part renders as. A reasoning part carries the key its reported
      duration is filed under, when the parent supplied a duration callback. */
  datatype PartView =
    | TextView(key: string, text: FollowUps.TextView)
    | ReasoningView(key: string, isStreaming: bool, duration: Option<int>, reportsDurationTo: Option<string>)
    | ToolResultView(key: string)
    | ToolCallView(key: string)
    | NoView

  /** `durations?.[key]`. */
  function LookupDuration(durations: Option<map<string, int>>, key: string): (r: Option<int>)
    ensures r.Some? <==> durations.Some? && key in durations.value
    ensures r.Some? ==> r.value == durations.value[key]
  {
    match durations
    case None => None
    case Some(m) => if key in m then Some(m[key]) else None
  }

  /** The dispatch of one part on its type tag: text goes through the
      follow-up split, reasoning shows its recorded duration, a tool part is
      a result exactly when its state is `output-available` and a call
      otherwise, and every other type renders nothing. */
  function RenderPart(messageId: string, partCount: nat, i: nat, part: Part, status: Option<Status>,
                      isLastMessage: bool, durations: Option<map<string, int>>,
                      hasDurationCallback: bool): (r: PartView)
    ensures part.kind == "text" ==> r == TextView(DurationKey(messageId, i), FollowUps.RenderText(part.text.GetOr("")))
    ensures part.kind == "reasoning" ==> r.ReasoningView?
    ensures r.ReasoningView? ==> r.isStreaming == IsStreaming(status, isLastMessage, i, partCount)
    ensures r.ReasoningView? ==> r.duration == LookupDuration(durations, DurationKey(messageId, i))
    ensures r.ReasoningView? ==> (r.reportsDurationTo.Some? <==> hasDurationCallback)
    ensures r.ReasoningView? && r.reportsDurationTo.Some? ==> r.reportsDurationTo.value == DurationKey(messageId, i)
    ensures IsToolKind(part.kind) && part.kind != "text" && part.kind != "reasoning" ==>
              (r.ToolResultView? <==> part.state == Some(OUTPUT_AVAILABLE)) && (r.ToolResultView? || r.ToolCallView?)
    ensures r.NoView? <==> part.kind != "text" && part.kind != "reasoning" && !IsToolKind(part.kind)
    ensures !r.NoView? ==> r.key == DurationKey(messageId, i)
  {
    var key := DurationKey(messageId, i);
    if part.kind == "text" then
      TextView(key, FollowUps.RenderText(part.text.GetOr("")))
    else if part.kind == "reasoning" then
      ReasoningView(key, IsStreaming(status, isLastMessage, i, partCount),
                    LookupDuration(durations, key),
                    if hasDurationCallback then Some(key) else None)
    else if IsToolKind(part.kind) then
      if part.state == Some(OUTPUT_AVAILABLE) then ToolResultView(key) else ToolCallView(key)
    else NoView
  }

  /** The whole message, `message.parts.map(...)`: one view per part, in
      order; the rendered parts have pairwise distinct keys, and only the
      last part of the last message can show as streaming, and only while
      the status is `streaming`. */
  function RenderMessage(message: Message, status: Option<Status>, isLastMessage: bool,
                         durations: Option<map<string, int>>, hasDurationCallback: bool): (r: seq<PartView>)
    ensures |r| == |message.parts|
    ensures forall i :: 0 <= i < |r| ==> (r[i].NoView? <==>
              message.parts[i].kind != "text" && message.parts[i].kind != "reasoning" && !IsToolKind(message.parts[i].kind))
    ensures forall i, j :: 0 <= i < j < |r| && !r[i].NoView? && !r[j].NoView? ==> r[i].key != r[j].key
    ensures forall i :: 0 <= i < |r| && r[i].ReasoningView? && r[i].isStreaming ==>
              status == Some(Streaming) && isLastMessage && i == |r| - 1
  {
    var n := |message.parts|;
    var r := seq(n, i requires 0 <= i < n =>
      RenderPart(message.id, n, i, message.parts[i], status, isLastMessage, durations, hasDurationCallback));
    r
  }
}

=== FILE: chatpage.dfy ===
/** The chat page's state logic: the page state as an explicit record, the
    effects and handlers that change it (hydration, write-through
    persistence, duration updates, the one-time welcome message, clearing),
    and the predicates that gate the input form on the stream status. */
module ChatPage {
  import opened Wrappers
  import opened JsString
  import opened ChatTypes
  import opened Storage
  import AssistantMessage

  const AI_NAME: string := "FinSight AI"
  const OWNER_NAME: string := "Shreyas & Kanupriya"

  /** The greeting text, line break and the space before it included. */
  const WELCOME_MESSAGE: string :=
    "Hi! I'm " + AI_NAME + ", a financial research assistant built by " + OWNER_NAME + ". \n"
    + "I first search embedded FMCG reports and only use web sources if required."

  /** The page's React state and refs in one record. `stored` is the snapshot
      read during the first render, which the mount effect later installs;
      `initialMessages` is the frozen `useState` copy of its messages;
      `welcomeShown` is `welcomeMessageShownRef.current`; `storage` is the
      browser's local storage. */
  datatype Page = Page(
    inBrowser: bool,
    isClient: bool,
    stored: Snapshot,
    initialMessages: seq<Message>,
    messages: seq<Message>,
    durations: map<string, int>,
    welcomeShown: bool,
    storage: LocalStorage)

  /** The first render: storage is read (only in a browser; `readFails`
      stands for `getItem` throwing), the chat starts from the stored
      messages, durations start empty and the page is not yet marked as
      running on the client. */
  function FirstRender(inBrowser: bool, readFails: bool, storage: LocalStorage): (p: Page)
    ensures p.stored == Load(inBrowser, readFails, storage)
    ensures p.initialMessages == p.stored.messages && p.messages == p.stored.messages
    ensures !p.isClient && !p.welcomeShown && p.durations == map[]
    ensures p.inBrowser == inBrowser && p.storage == storage
  {
    var stored := if inBrowser then Load(inBrowser, readFails, storage) else EMPTY_SNAPSHOT;
    Page(inBrowser, false, stored, stored.messages, stored.messages, map[], false, storage)
  }

  /** The mount effect: the page is on the client, and the stored durations
      and messages become the live ones. */
  function Mount(p: Page): (r: Page)
    ensures r.isClient
    ensures r.messages == p.stored.messages && r.durations == p.stored.durations
    ensures r == p.(isClient := true, messages := r.messages, durations := r.durations)
  {
    p.(isClient := true, messages := p.stored.messages, durations := p.stored.durations)
  }

  /** The persistence effect that runs after every change of messages or
      durations: once on the client, the live snapshot is written through;
      a later load returns it unless the write failed. Only storage changes. */
  function Persist(p: Page, writeFails: bool): (r: Page)
    ensures !p.isClient ==> r == p
    ensures r == p.(storage := r.storage)
    ensures p.isClient && p.inBrowser && !writeFails ==>
              Load(true, false, r.storage) == Snapshot(p.messages, p.durations)
    ensures writeFails || !p.inBrowser ==> r.storage == p.storage
  {
    if p.isClient then
      SaveThenLoad(p.storage, p.messages, p.durations);
      p.(storage := Save(p.inBrowser, p.storage, p.messages, p.durations, writeFails))
    else p
  }

  /** `handleDurationChange(key, duration)`: an upsert of one entry of the
      duration table. The key now maps to the new duration; every other key
      keeps its entry; nothing else on the page changes. */
  function DurationChange(p: Page, key: string, duration: int): (r: Page)
    ensures key in r.durations && r.durations[key] == duration
    ensures r.durations.Keys == p.durations.Keys + {key}
    ensures forall k :: k in p.durations && k != key ==> r.durations[k] == p.durations[k]
    ensures r == p.(durations := r.durations)
  {
    p.(durations := p.durations[key := duration])
  }

  /** The last write for a key wins. */
  lemma DurationLastWriteWins(p: Page, key: string, d1: int, d2: int)
    ensures DurationChange(DurationChange(p, key, d1), key, d2) == DurationChange(p, key, d2)
  {
  }

  /** Updates of different keys do not interfere. */
  lemma DurationChangesCommute(p: Page, k1: string, d1: int, k2: string, d2: int)
    requires k1 != k2
    ensures DurationChange(DurationChange(p, k1, d1), k2, d2) == DurationChange(DurationChange(p, k2, d2), k1, d1)
  {
  }

  /** A duration reported by a reasoning part is shown by that part on the
      next render: the part's callback key and its lookup key agree. */
  lemma ReportedDurationIsShown(p: Page, message: Message, i: nat, status: Option<Status>,
                                isLastMessage: bool, duration: int)
    requires i < |message.parts| && message.parts[i].kind == "reasoning"
    ensures var before := AssistantMessage.RenderPart(message.id, |message.parts|, i, message.parts[i],
                                                      status, isLastMessage, Some(p.durations), true);
            var after := DurationChange(p, before.reportsDurationTo.value, duration);
            AssistantMessage.RenderPart(message.id, |message.parts|, i, message.parts[i],
                                        status, isLastMessage, Some(after.durations), true).duration
              == Some(duration)
  {
  }

  /** The greeting: one assistant message with a single text part, its id
      made from the creation time `now` (`Date.now()`). */
  function WelcomeMessage(now: nat): (m: Message)
    ensures m.role == Assistant && |m.parts| == 1
    ensures m.parts[0] == Part("text", Some(WELCOME_MESSAGE), None)
    ensures StartsWith(m.id, "welcome-") && m.id[|"welcome-"|..] == NatToString(now)
  {
    Message("welcome-" + NatToString(now), Assistant, [Part("text", Some(WELCOME_MESSAGE), None)])
  }

  /** The welcome effect's guard. */
  predicate WelcomeDue(p: Page)
    ensures WelcomeDue(p) ==> p.isClient && p.initialMessages == []
    ensures p.welcomeShown ==> !WelcomeDue(p)
  {
    p.isClient && |p.initialMessages| == 0 && !p.welcomeShown
  }

  /** The welcome effect: only on the client, only when the conversation
      started empty, and only while the once-flag is down, the messages
      become exactly the greeting, the greeting is saved with an empty
      duration table, and the flag is raised; nothing else on the page
      changes. Otherwise nothing changes at all. */
  function WelcomeEffect(p: Page, now: nat, writeFails: bool): (r: Page)
    ensures !WelcomeDue(p) ==> r == p
    ensures WelcomeDue(p) ==> r.messages == [WelcomeMessage(now)] && r.welcomeShown
    ensures WelcomeDue(p) && p.inBrowser && !writeFails ==>
              Load(true, false, r.storage) == Snapshot([WelcomeMessage(now)], map[])
    ensures WelcomeDue(p) && (writeFails || !p.inBrowser) ==> r.storage == p.storage
    ensures WelcomeDue(p) ==> r == p.(messages := [WelcomeMessage(now)], storage := r.storage, welcomeShown := true)
  {
    if WelcomeDue(p) then
      var welcome := WelcomeMessage(now);
      SaveThenLoad(p.storage, [welcome], map[]);
      p.(messages := [welcome],
         storage := Save(p.inBrowser, p.storage, [welcome], map[], writeFails),
         welcomeShown := true)
    else p
  }

  /** Re-running the welcome effect changes nothing. */
  lemma WelcomeEffectIdempotent(p: Page, now1: nat, fails1: bool, now2: nat, fails2: bool)
    ensures WelcomeEffect(WelcomeEffect(p, now1, fails1), now2, fails2) == WelcomeEffect(p, now1, fails1)
  {
  }

  /** `clearChat`: messages and durations become empty and the empty
      snapshot is saved straight away (with no client guard). The once-flag
      stays as it was, so clearing never brings the greeting back. */
  function ClearChat(p: Page, writeFails: bool): (r: Page)
    ensures r.messages == [] && r.durations == map[]
    ensures p.inBrowser && !writeFails ==> Load(true, false, r.storage) == EMPTY_SNAPSHOT
    ensures writeFails || !p.inBrowser ==> r.storage == p.storage
    ensures r == p.(messages := [], durations := map[], storage := r.storage)
  {
    SaveThenLoad(p.storage, [], map[]);
    p.(messages := [], durations := map[], storage := Save(p.inBrowser, p.storage, [], map[], writeFails))
  }

  // ---------- the page over time ----------

  /** Everything that can happen to the page. `ChannelUpdate` is the chat
      library replacing the message list while it sends and streams. */
  datatype Event =
    | MountEvent
    | PersistEvent(writeFails: bool)
    | DurationEvent(key: string, duration: int)
    | WelcomeEvent(now: nat, writeFails: bool)
    | ClearEvent(writeFails: bool)
    | ChannelUpdate(messages: seq<Message>)

  function Step(p: Page, e: Event): (r: Page)
    ensures r.initialMessages == p.initialMessages
    ensures p.welcomeShown ==> r.welcomeShown
  {
    match e
    case MountEvent => Mount(p)
    case PersistEvent(fails) => Persist(p, fails)
    case DurationEvent(key, d) => DurationChange(p, key, d)
    case WelcomeEvent(now, fails) => WelcomeEffect(p, now, fails)
    case ClearEvent(fails) => ClearChat(p, fails)
    case ChannelUpdate(messages) => p.(messages := messages)
  }

  /** The number of times the greeting is inserted along a run of events. */
  function WelcomeCount(p: Page, events: seq<Event>): nat
    decreases |events|
  {
    if events == [] then 0
    else
      (if events[0].WelcomeEvent? && WelcomeDue(p) then 1 else 0)
      + WelcomeCount(Step(p, events[0]), events[1..])
  }

  /** Whatever happens, the greeting is inserted at most once, never after
      the flag is up, and never when the conversation did not start empty. */
  lemma {:induction false} WelcomeAtMostOnce(p: Page, events: seq<Event>)
    ensures WelcomeCount(p, events) <= 1
    ensures p.welcomeShown || |p.initialMessages| > 0 ==> WelcomeCount(p, events) == 0
    decreases |events|
  {
    if events != [] {
      var q := Step(p, events[0]);
      WelcomeAtMostOnce(q, events[1..]);
      if events[0].WelcomeEvent? && WelcomeDue(p) {
        assert q.welcomeShown;
      }
    }
  }

  // ---------- the input form ----------

  const MAX_MESSAGE_LENGTH: nat := 2000

  /** The form schema: a message of 1 to 2000 UTF-16 code units. */
  predicate SchemaAccepts(value: string)
    ensures SchemaAccepts(value) ==> 1 <= |value| <= MAX_MESSAGE_LENGTH
  {
    JsLengthBounds(value);
    1 <= JsLength(value) <= MAX_MESSAGE_LENGTH
  }

  /** In characters: at least one, and at most 2000 for text in the Basic
      Multilingual Plane; anything of up to 1000 characters fits. */
  lemma SchemaBounds(value: string)
    ensures SchemaAccepts(value) ==> 1 <= |value| <= MAX_MESSAGE_LENGTH
    ensures 1 <= |value| <= MAX_MESSAGE_LENGTH / 2 ==> SchemaAccepts(value)
    ensures (forall k :: 0 <= k < |value| ==> value[k] as int <= 0xFFFF) ==>
              (SchemaAccepts(value) <==> 1 <= |value| <= MAX_MESSAGE_LENGTH)
  {
    JsLengthBounds(value);
  }

  /** The text input is disabled while the reply streams, which is only ever
      while the stop control is shown. */
  predicate InputDisabled(status: Status)
    ensures InputDisabled(status) ==> StopShown(status)
  {
    status == Streaming
  }

  /** The stop control replaces the send button while a request is open,
      that is, in every status but ready and error. */
  predicate StopShown(status: Status)
    ensures StopShown(status) <==> status != Ready && status != Error
  {
    status == Submitted || status == Streaming
  }

  /** The send button is disabled while the trimmed input is empty, that is,
      while the input is all whitespace. */
  predicate SubmitDisabled(value: string)
    ensures SubmitDisabled(value) <==> AllSpace(value)
  {
    TrimEmptyIffBlank(value);
    Trim(value) == []
  }

  /** A user gesture on the form. */
  datatype Gesture = ClickSend | KeyDown(key: string, shiftKey: bool)

  /** What a gesture sends, if anything, and the input value afterwards. */
  datatype FormResult = FormResult(sent: Option<string>, value: string)

  /** `form.handleSubmit(onSubmit)`: a value the schema accepts is sent as
      it is and the form is reset; any other value stays in the input. */
  function HandleSubmit(value: string): (r: FormResult)
    ensures r.sent.Some? <==> SchemaAccepts(value)
    ensures r.sent.Some? ==> r.sent.value == value && r.value == ""
    ensures r.sent.None? ==> r.value == value
  {
    if SchemaAccepts(value) then FormResult(Some(value), "") else FormResult(None, value)
  }

  /** A gesture under a status. A click reaches the send button only when
      the stop control is not in its place and the button is enabled; Enter
      without Shift submits from the input whenever the input is enabled,
      with no blank check of its own. */
  function Interact(status: Status, value: string, g: Gesture): (r: FormResult)
    ensures r.sent.Some? ==> r.sent.value == value && SchemaAccepts(value) && r.value == ""
    ensures r.sent.None? ==> r.value == value
    ensures status == Streaming ==> r.sent.None?
    ensures g.ClickSend? ==> (r.sent.Some? <==> !StopShown(status) && Trim(value) != [] && SchemaAccepts(value))
    ensures g.KeyDown? ==>
              (r.sent.Some? <==> status != Streaming && g.key == "Enter" && !g.shiftKey && SchemaAccepts(value))
  {
    match g
    case ClickSend =>
      if StopShown(status) || SubmitDisabled(value) then FormResult(None, value) else HandleSubmit(value)
    case KeyDown(key, shiftKey) =>
      if InputDisabled(status) || key != "Enter" || shiftKey then FormResult(None, value)
      else HandleSubmit(value)
  }

  /** The blank check lives on the button only: Enter sends a message of
      spaces, which the disabled button would not. */
  lemma EnterSendsBlankInput()
    ensures SubmitDisabled("  ")
    ensures Interact(Ready, "  ", ClickSend).sent == None
    ensures Interact(Ready, "  ", KeyDown("Enter", false)).sent == Some("  ")
  {
  }

  /** While a request is submitted but not yet streaming, the stop control
      is shown but the input is still enabled, so Enter sends again. */
  lemma EnterSendsWhileSubmitted()
    ensures StopShown(Submitted) && !InputDisabled(Submitted)
    ensures Interact(Submitted, "hi", ClickSend).sent == None
    ensures Interact(Submitted, "hi", KeyDown("Enter", false)).sent == Some("hi")
  {
  }
}

=== FILE: chattypes.dfy ===
/** The records the chat client passes around, in the shape the browser sees
    them after `JSON.parse` of the stream or of local storage. */
module ChatTypes {
  import opened Wrappers

  datatype Role = System | User | Assistant

  /** One entry of a message's `parts`. The client dispatches on the `type`
      tag as a string, so the tag is kept as a string here: `"text"`,
      `"reasoning"`, `"tool-<name>"`, `"dynamic-tool"`, or anything else the
      stream produces. `text` is the text of text and reasoning parts and
      `state` the lifecycle field of tool parts; each is absent on parts that
      do not carry it. */
  datatype Part = Part(kind: string, text: Option<string>, state: Option<string>)

  datatype Message = Message(id: string, role: Role, parts: seq<Part>)

  /** The generation channel's status signal. */
  datatype Status = Submitted | Streaming | Ready | Error
}

=== FILE: followupexamples.dfy ===
/** Concrete instances of the follow-up split: which lines count as the
    heading, how ordinal markers are stripped, and one complete answer
    rendered into its answer text, heading and buttons. */
module FollowUpExamples {
  import opened Wrappers
  import opened JsString
  import opened FollowUps
  import Seqs

  // ---------- headings ----------

  /** The phrase is matched in any letter case, colon or not. */
  lemma HeadingCaseInsensitive()
    ensures IsHeading("Follow-up Questions:")
  {
  }

  /** The phrase must open the line: leading whitespace, a qualifier in
      front of it or a missing hyphen each make the line an ordinary one. */
  lemma HeadingMustOpenTheLine()
    ensures !IsHeading(" Follow-up questions:")
    ensures !IsHeading("Relevant follow-up questions:")
    ensures !IsHeading("Follow up questions")
  {
    assert LowerAscii(" Follow-up questions:")[..19][0] == ' ';
    assert LowerAscii("Relevant follow-up questions:")[..19][0] == 'r';
    assert LowerAscii("Follow up questions")[..19][6] == ' ';
  }

  /** Trailing whitespace after the colon is dropped from the heading shown;
      a heading without a colon is shown as written. */
  lemma HeadingLabelExamples()
    ensures HeadingLabel("Follow-up questions: \t") == "Follow-up questions:"
    ensures HeadingLabel("Follow-up questions") == "Follow-up questions"
  {
    var h := "Follow-up questions: \t";
    assert ColonTail(h, 19);
    assert h[..20] == "Follow-up questions:";
    assert SpaceRunStart("Follow-up questions", 19) == 19;
  }

  // ---------- ordinal markers ----------

  /** The marker and the whitespace after it are removed. */
  lemma MarkerRemoved()
    ensures CleanQuestion("1. Why?") == "Why?"
  {
    var line, rest := "1. Why?", "Why?";
    assert line[3..] == rest;
    CleanNumbered(line, rest);
  }

  /** Only the first marker is removed. */
  lemma OnlyFirstMarkerRemoved()
    ensures CleanQuestion("1. 2. Why?") == "2. Why?"
  {
    var line := "1. 2. Why?";
    assert MarkerAt(line, 0, 1);
    assert line[2..] == " 2. Why?";
    assert SpaceRunEnd(" 2. Why?", 0) == 1;
    assert SpaceRunEnd("2. Why?", 0) == 0;
    assert SpaceRunStart("2. Why?", 7) == 7;
  }

  /** A parenthesis is not a marker: the line is kept whole. */
  lemma ParenthesisIsNotAMarker()
    ensures CleanQuestion("1) Why?") == "1) Why?"
  {
    var line := "1) Why?";
    assert SpaceRunEnd(line, 0) == 0;
    assert DigitRunEnd(line, 0) == 1;
    assert SpaceRunStart(line, 7) == 7;
  }

  /** A one-digit marker followed by one space and an already trimmed
      question cleans to that question. */
  lemma CleanNumbered(line: string, rest: string)
    requires |line| >= 3 && IsDigit(line[0]) && line[1] == '.' && line[2] == ' '
    requires line[3..] == rest && rest != [] && !IsSpace(rest[0]) && !IsSpace(rest[|rest| - 1])
    ensures CleanQuestion(line) == rest
  {
    assert MarkerAt(line, 0, 1);
    assert line[2..] == [' '] + rest;
    assert SpaceRunEnd(line[2..], 0) == 1;
    assert SpaceRunEnd(rest, 0) == 0;
    assert SpaceRunStart(rest, |rest|) == |rest|;
  }

  // ---------- a complete answer ----------

  const ANSWER := "Margins rose 2pp."
  const HEADING := "Follow-up Questions:"
  const LINE1 := "1. What drove the rise?"
  const LINE2 := "2. How does it compare to peers?"
  const QUESTION1 := "What drove the rise?"
  const QUESTION2 := "How does it compare to peers?"
  const TEXT := ANSWER + "\n" + HEADING + "\n" + LINE1 + "\n" + LINE2

  lemma TextLines()
    ensures Split(TEXT, '\n') == [ANSWER, HEADING, LINE1, LINE2]
  {
    assert [ANSWER, HEADING, LINE1, LINE2][1..] == [HEADING, LINE1, LINE2];
    assert [HEADING, LINE1, LINE2][1..] == [LINE1, LINE2];
    assert [LINE1, LINE2][1..] == [LINE2];
    assert Join([LINE1, LINE2], '\n') == LINE1 + "\n" + LINE2;
    assert Join([HEADING, LINE1, LINE2], '\n') == HEADING + "\n" + LINE1 + "\n" + LINE2;
    assert Join([ANSWER, HEADING, LINE1, LINE2], '\n') == TEXT;
    SplitJoin([ANSWER, HEADING, LINE1, LINE2], '\n');
  }

  lemma AllNonBlank(xs: seq<string>)
    requires xs == [ANSWER, HEADING, LINE1, LINE2]
    ensures forall k :: 0 <= k < |xs| ==> IsNonBlank(xs[k])
  {
  }

  lemma TextNonBlankLines(raw: string)
    requires Split(raw, '\n') == [ANSWER, HEADING, LINE1, LINE2]
    ensures NonBlankLines(raw) == [ANSWER, HEADING, LINE1, LINE2]
  {
    var xs := Split(raw, '\n');
    AllNonBlank(xs);
    Seqs.FilterAll(xs, IsNonBlank);
  }

  lemma TextSegments()
    ensures SplitAtHeading([ANSWER, HEADING, LINE1, LINE2]) == Segments([ANSWER], HEADING, [LINE1, LINE2])
  {
    assert !IsHeading(ANSWER) by { assert |LowerAscii(ANSWER)| == 17; }
    assert IsHeading(HEADING) by { assert LowerAscii(HEADING)[..19] == HEADING_PREFIX; }
    assert FindHeading([ANSWER, HEADING, LINE1, LINE2]) == Some(1);
  }

  lemma CleanLine1()
    ensures CleanQuestion(LINE1) == QUESTION1
  {
    assert LINE1[3..] == QUESTION1;
    assert !IsSpace(QUESTION1[0]) && !IsSpace(QUESTION1[|QUESTION1| - 1]);
    CleanNumbered(LINE1, QUESTION1);
  }

  lemma CleanLine2()
    ensures CleanQuestion(LINE2) == QUESTION2
  {
    assert LINE2[3..] == QUESTION2;
    assert !IsSpace(QUESTION2[0]) && !IsSpace(QUESTION2[|QUESTION2| - 1]);
    CleanNumbered(LINE2, QUESTION2);
  }

  lemma TextQuestions()
    ensures Questions([LINE1, LINE2]) == [QUESTION1, QUESTION2]
  {
    CleanLine1();
    CleanLine2();
    QuestionsConcat([LINE1], [LINE2]);
    QuestionsSingleton(LINE1);
    QuestionsSingleton(LINE2);
    assert [LINE1, LINE2] == [LINE1] + [LINE2];
  }

  lemma DigitCaption(n: nat, q: string)
    requires 1 <= n <= 9
    ensures ButtonLabel(n, q) == [DigitChar(n)] + ". " + q
  {
  }

  lemma TwoButtons(qs: seq<string>)
    requires |qs| == 2
    ensures Buttons(qs)
         == [FollowupButton("1. " + qs[0], qs[0]), FollowupButton("2. " + qs[1], qs[1])]
  {
    var r := Buttons(qs);
    DigitCaption(1, qs[0]);
    DigitCaption(2, qs[1]);
    assert [DigitChar(1)] + ". " == "1. ";
    assert [DigitChar(2)] + ". " == "2. ";
    assert r[0] == FollowupButton(ButtonLabel(1, qs[0]), qs[0]);
    assert r[1] == FollowupButton(ButtonLabel(2, qs[1]), qs[1]);
  }

  lemma Captions(q1: string, q2: string)
    requires q1 == QUESTION1 && q2 == QUESTION2
    ensures "1. " + q1 == LINE1 && "2. " + q2 == LINE2
  {
  }

  lemma RenderedHeading(raw: string)
    requires Split(raw, '\n') == [ANSWER, HEADING, LINE1, LINE2]
    ensures RenderText(raw).WithFollowups? && RenderText(raw).heading == HEADING
  {
    TextNonBlankLines(raw);
    TextSegments();
    RenderFromSegments(raw, [ANSWER], HEADING, [LINE1, LINE2]);
    assert ColonTail(HEADING, 19);
    assert HEADING[..20] == HEADING;
  }

  lemma RenderedPreText(raw: string)
    requires Split(raw, '\n') == [ANSWER, HEADING, LINE1, LINE2]
    ensures RenderText(raw).WithFollowups? && RenderText(raw).preText == Some(ANSWER)
  {
    TextNonBlankLines(raw);
    TextSegments();
    RenderFromSegments(raw, [ANSWER], HEADING, [LINE1, LINE2]);
    assert Join([ANSWER], '\n') == ANSWER;
  }

  lemma RenderedButtons(raw: string)
    requires Split(raw, '\n') == [ANSWER, HEADING, LINE1, LINE2]
    ensures RenderText(raw).WithFollowups? && RenderText(raw).buttons == Buttons(Questions([LINE1, LINE2]))
  {
    TextNonBlankLines(raw);
    TextSegments();
    RenderFromSegments(raw, [ANSWER], HEADING, [LINE1, LINE2]);
  }

  lemma RenderLines(raw: string)
    requires Split(raw, '\n') == [ANSWER, HEADING, LINE1, LINE2]
    ensures RenderText(raw)
         == WithFollowups(Some(ANSWER), HEADING,
              [FollowupButton(LINE1, QUESTION1), FollowupButton(LINE2, QUESTION2)])
  {
    RenderedHeading(raw);
    RenderedPreText(raw);
    RenderedButtons(raw);
    var qs := Questions([LINE1, LINE2]);
    TextQuestions();
    TwoButtons(qs);
    Captions(qs[0], qs[1]);
  }

  /** The answer above the heading is kept as the answer text, the heading is
      shown as written, and each numbered line becomes a button that shows
      the numbered line and sends the bare question. */
  lemma RenderedAnswer()
    ensures RenderText(TEXT)
         == WithFollowups(Some(ANSWER), HEADING,
              [FollowupButton(LINE1, QUESTION1), FollowupButton(LINE2, QUESTION2)])
  {
    TextLines();
    RenderLines(TEXT);
  }

  // ---------- a qualified heading is not recognised ----------

  const QUALIFIED := "Relevant follow-up questions:"
  const QUALIFIED_TEXT := ANSWER + "\n" + QUALIFIED + "\n" + LINE1

  lemma QualifiedLines()
    ensures Split(QUALIFIED_TEXT, '\n') == [ANSWER, QUALIFIED, LINE1]
  {
    assert [ANSWER, QUALIFIED, LINE1][1..] == [QUALIFIED, LINE1];
    assert [QUALIFIED, LINE1][1..] == [LINE1];
    assert Join([QUALIFIED, LINE1], '\n') == QUALIFIED + "\n" + LINE1;
    assert Join([ANSWER, QUALIFIED, LINE1], '\n') == QUALIFIED_TEXT;
    SplitJoin([ANSWER, QUALIFIED, LINE1], '\n');
  }

  lemma NoHeadingLine(lines: seq<string>)
    requires lines == [ANSWER, QUALIFIED, LINE1]
    ensures forall l :: l in lines ==> !IsHeading(l)
  {
    assert |LowerAscii(ANSWER)| == 17;
    assert LowerAscii(QUALIFIED)[..19][0] == 'r';
    assert LowerAscii(LINE1)[..19][0] == '1';
  }

  /** A heading with a word in front of the phrase leaves the whole answer,
      numbered lines included, as plain text. */
  lemma QualifiedHeadingStaysPlain()
    ensures RenderText(QUALIFIED_TEXT) == Plain(QUALIFIED_TEXT)
  {
    QualifiedLines();
    NoHeadingLine(Split(QUALIFIED_TEXT, '\n'));
  }
}

=== FILE: followups.dfy ===
/** The follow-up split of an assistant text part: the text is cut into
    non-blank lines, the first line that starts with the heading phrase
    separates the answer from the suggested questions, and the question lines
    are cleaned of their ordinal markers. */
module FollowUps {
  import opened Wrappers
  import opened JsString
  import Seqs

  /** The only heading the client recognises, compared against the
      lower-cased line. */
  const HEADING_PREFIX: string := "follow-up questions"

  /** A heading line starts, at its very first character, with the phrase in
      any ASCII letter case; so it is at least as long as the phrase and
      opens with an `f` or an `F`. */
  predicate IsHeading(line: string)
    ensures IsHeading(line) ==> |line| >= |HEADING_PREFIX| && (line[0] == 'f' || line[0] == 'F')
  {
    StartsWith(LowerAscii(line), HEADING_PREFIX)
  }

  /** The line filter `l.trim().length > 0`: the line is not all whitespace. */
  predicate IsNonBlank(line: string)
    ensures IsNonBlank(line) <==> !AllSpace(line)
  {
    TrimEmptyIffBlank(line);
    |Trim(line)| > 0
  }

  /** A heading line is never blank and never starts with whitespace. */
  lemma HeadingIsNonBlank(line: string)
    requires IsHeading(line)
    ensures !IsSpace(line[0])
    ensures IsNonBlank(line)
  {
  }

  /** `raw.split("\n").filter(l => l.trim().length > 0)`. */
  function NonBlankLines(raw: string): (r: seq<string>)
    ensures forall k :: 0 <= k < |r| ==> IsNonBlank(r[k]) && '\n' !in r[k]
    ensures forall k :: 0 <= k < |r| ==> r[k] in Split(raw, '\n')
    ensures forall l :: l in Split(raw, '\n') && IsNonBlank(l) ==> l in r
  {
    Seqs.Filter(Split(raw, '\n'), IsNonBlank)
  }

  /** `lines.findIndex(IsHeading)`, with `None` for `-1`: the first heading line. */
  function FindHeading(lines: seq<string>): (r: Option<nat>)
    ensures r.None? <==> forall k :: 0 <= k < |lines| ==> !IsHeading(lines[k])
    ensures r.Some? ==> r.value < |lines| && IsHeading(lines[r.value])
    ensures r.Some? ==> forall k :: 0 <= k < r.value ==> !IsHeading(lines[k])
  {
    if lines == [] then None
    else if IsHeading(lines[0]) then Some(0)
    else
      match FindHeading(lines[1..])
      case None => None
      case Some(i) => Some(i + 1)
  }

  /** The three pieces around the heading, or no heading at all. */
  datatype Segments =
    | NoHeading
    | Segments(before: seq<string>, heading: string, after: seq<string>)

  /** Cuts the non-blank lines at the first heading: the pieces put back
      together are the lines, in order, and the heading is the first line
      that qualifies. Later heading-like lines stay in `after`. */
  function SplitAtHeading(lines: seq<string>): (r: Segments)
    ensures r.NoHeading? <==> forall k :: 0 <= k < |lines| ==> !IsHeading(lines[k])
    ensures r.Segments? ==> r.before + [r.heading] + r.after == lines
    ensures r.Segments? ==> IsHeading(r.heading)
    ensures r.Segments? ==> forall k :: 0 <= k < |r.before| ==> !IsHeading(r.before[k])
  {
    match FindHeading(lines)
    case None => NoHeading
    case Some(i) =>
      assert lines[..i] + [lines[i]] + lines[i + 1..] == lines;
      Segments(lines[..i], lines[i], lines[i + 1..])
  }

  // ---------- the ordinal marker /^\s*\d+\.\s*/ ----------

  /** The end of the digit run of `s` that starts at `from`. */
  function DigitRunEnd(s: string, from: nat): (e: nat)
    requires from <= |s|
    ensures from <= e <= |s|
    ensures forall k :: from <= k < e ==> IsDigit(s[k])
    ensures e == |s| || !IsDigit(s[e])
    decreases |s| - from
  {
    if from < |s| && IsDigit(s[from]) then DigitRunEnd(s, from + 1) else from
  }

  /** The regular expression `^\s*\d+\.` matches `line` with the whitespace
      run ending at `i` and the digit run ending at the dot at `j`. */
  ghost predicate MarkerAt(line: string, i: nat, j: nat) {
    && i < j < |line|
    && (forall k :: 0 <= k < i ==> IsSpace(line[k]))
    && (forall k :: i <= k < j ==> IsDigit(line[k]))
    && line[j] == '.'
  }

  /** Whitespace and digits are disjoint, so a marker match can only end
      where the maximal whitespace run and the maximal digit run after it end. */
  lemma MarkerPosition(line: string, i': nat, j': nat)
    requires MarkerAt(line, i', j')
    ensures i' == SpaceRunEnd(line, 0)
    ensures j' == DigitRunEnd(line, i')
  {
  }

  lemma MarkerIsUnique(line: string)
    ensures forall i': nat, j': nat :: MarkerAt(line, i', j') ==>
              i' == SpaceRunEnd(line, 0) && j' == DigitRunEnd(line, i')
  {
    forall i': nat, j': nat | MarkerAt(line, i', j')
      ensures i' == SpaceRunEnd(line, 0) && j' == DigitRunEnd(line, i')
    {
      MarkerPosition(line, i', j');
    }
  }

  // `line.replace(/^\s*\d+\.\s*/, "")`: when the line opens with an
  // ordinal marker, the marker and the whitespace after it are removed;
  // otherwise the line is unchanged. At most one marker is removed.
  // (A line comment, since the pattern itself contains the block-comment end.)
  function StripMarker(line: string): (r: string)
    ensures forall i: nat, j: nat :: MarkerAt(line, i, j) ==> r == TrimStart(line[j + 1..])
    ensures (forall i: nat, j: nat :: !MarkerAt(line, i, j)) ==> r == line
  {
    var i := SpaceRunEnd(line, 0);
    var j := DigitRunEnd(line, i);
    MarkerIsUnique(line);
    if i < j < |line| && line[j] == '.' then
      assert MarkerAt(line, i, j);
      TrimStart(line[j + 1..])
    else
      assert forall i': nat, j': nat :: !MarkerAt(line, i', j');
      line
  }

  /** One question line as displayed: marker stripped, then trimmed. */
  function CleanQuestion(line: string): (r: string)
    ensures r == [] || (!IsSpace(r[0]) && !IsSpace(r[|r| - 1]))
  {
    Trim(StripMarker(line))
  }

  predicate IsNonEmpty(q: string) {
    q != []
  }

  /** `questionLines.map(CleanQuestion).filter(q => q.length > 0)`. */
  function Questions(lines: seq<string>): (r: seq<string>)
    ensures |r| <= |lines|
    ensures forall k :: 0 <= k < |r| ==> r[k] != [] && !IsSpace(r[k][0]) && !IsSpace(r[k][|r[k]| - 1])
    ensures forall k :: 0 <= k < |r| ==> r[k] in Seqs.Map(lines, CleanQuestion)
    ensures forall j :: 0 <= j < |lines| && CleanQuestion(lines[j]) != [] ==> CleanQuestion(lines[j]) in r
  {
    var cleaned := Seqs.Map(lines, CleanQuestion);
    var r := Seqs.Filter(cleaned, IsNonEmpty);
    r
  }

  /** The questions of a concatenation are the questions of each part, in
      order: no question is reordered. */
  lemma QuestionsConcat(a: seq<string>, b: seq<string>)
    ensures Questions(a + b) == Questions(a) + Questions(b)
  {
    Seqs.MapConcat(a, b, CleanQuestion);
    Seqs.FilterConcat(Seqs.Map(a, CleanQuestion), Seqs.Map(b, CleanQuestion), IsNonEmpty);
  }

  /** A single line yields its cleaned text, or nothing if that is empty. */
  lemma QuestionsSingleton(line: string)
    ensures Questions([line]) == if CleanQuestion(line) == [] then [] else [CleanQuestion(line)]
  {
  }

  // ---------- display ----------

  /** `heading.replace(/:\s*$/, ":")` matches at `p`: a colon followed only by
      whitespace up to the end of the line. */
  ghost predicate ColonTail(s: string, p: nat) {
    p < |s| && s[p] == ':' && AllSpace(s[p + 1..])
  }

  /** The heading as displayed: a colon followed by trailing whitespace is
      shown as the bare colon; any other heading is shown unchanged. */
  function HeadingLabel(heading: string): (r: string)
    ensures forall p: nat :: ColonTail(heading, p) ==> r == heading[..p + 1]
    ensures (forall p: nat :: !ColonTail(heading, p)) ==> r == heading
  {
    var t := TrimEnd(heading);
    assert forall p: nat :: ColonTail(heading, p) ==> p == |t| - 1 by {
      forall p: nat | ColonTail(heading, p) ensures p == |t| - 1 {
      }
    }
    if |t| > 0 && t[|t| - 1] == ':' then
      assert ColonTail(heading, |t| - 1);
      t
    else heading
  }

  /** One clickable suggestion: the numbered text it shows, and the question
      a click sends. */
  datatype FollowupButton = FollowupButton(caption: string, sends: string)

  /** The button text `${n}. ${q}`: it reads back as exactly `n` and `q`,
      and the number is written without a leading zero. */
  function ButtonLabel(n: nat, q: string): (r: string)
    ensures ParseLabel(r) == Some((n, q))
    ensures n >= 1 ==> r[0] != '0'
  {
    var d := NatToString(n);
    var r := d + ". " + q;
    assert r[..|d|] == d;
    assert r[|d| + 2..] == q;
    assert '.' !in d by {
      forall k | 0 <= k < |d| ensures d[k] != '.' { assert IsDigit(d[k]); }
    }
    assert r[..|d|] + ['.'] + r[|d| + 1..] == r;
    IndexOfAfter(d, r[|d| + 1..], '.');
    ParseNatToString(n);
    r
  }

  lemma IndexOfAfter(a: string, b: string, c: char)
    requires c !in a
    ensures IndexOf(a + [c] + b, c) == Some(|a|)
  {
    var s := a + [c] + b;
    assert s[|a|] == c;
    assert s[..|a|] == a;
  }

  /** Reads a button text back into its number and question. A specification
      helper: the client never parses captions. */
  function ParseLabel(s: string): Option<(nat, string)>
  {
    match IndexOf(s, '.')
    case None => None
    case Some(i) =>
      if i > 0 && AllDigits(s[..i]) && i + 1 < |s| && s[i + 1] == ' '
      then Some((ParseNat(s[..i]), s[i + 2..]))
      else None
  }

  /** The buttons for the questions: one per question, in order, numbered
      from 1 without gaps, and each click sends the question itself rather
      than its numbered label. */
  function Buttons(questions: seq<string>): (r: seq<FollowupButton>)
    ensures |r| == |questions|
    ensures forall k :: 0 <= k < |r| ==> r[k].sends == questions[k]
    ensures forall k :: 0 <= k < |r| ==> ParseLabel(r[k].caption) == Some((k + 1, questions[k]))
  {
    seq(|questions|, k requires 0 <= k < |questions| =>
      FollowupButton(ButtonLabel(k + 1, questions[k]), questions[k]))
  }

  /** The answer shown above the heading: the earlier lines joined with
      newlines, omitted when empty (the falsy `preText &&` guard). */
  function PreText(before: seq<string>): (r: Option<string>)
    requires forall k :: 0 <= k < |before| ==> IsNonBlank(before[k]) && '\n' !in before[k]
    ensures r.None? <==> before == []
    ensures r.Some? ==> Split(r.value, '\n') == before
  {
    var t := Join(before, '\n');
    forall k | 0 <= k < |before| ensures before[k] != [] {
      assert IsNonBlank(before[k]);
      assert |Trim(before[k])| <= |before[k]|;
    }
    JoinEmpty(before, '\n');
    if t == [] then None
    else
      SplitJoin(before, '\n');
      Some(t)
  }

  /** How one text part renders. */
  datatype TextView =
    | Plain(raw: string)
    | WithFollowups(preText: Option<string>, heading: string, buttons: seq<FollowupButton>)

  /** The text-part branch of the assistant message: raw text unchanged when
      no line is a heading, otherwise the answer, the heading and the
      question buttons. */
  function RenderText(raw: string): (r: TextView)
    ensures r.Plain? <==> forall l :: l in Split(raw, '\n') ==> !IsHeading(l)
    ensures r.Plain? ==> r.raw == raw
  {
    var lines := NonBlankLines(raw);
    forall l | l in Split(raw, '\n') && IsHeading(l) ensures l in lines {
      HeadingIsNonBlank(l);
    }
    match SplitAtHeading(lines)
    case NoHeading => Plain(raw)
    case Segments(before, heading, after) =>
      BeforeHeading(lines);
      WithFollowups(PreText(before), HeadingLabel(heading), Buttons(Questions(after)))
  }

  // ---------- properties of the split ----------

  /** When a heading is found, the answer is omitted exactly when the heading
      is the first non-blank line; otherwise it is the earlier lines joined by
      newlines and splits back into them, so it holds no blank line. There is
      one button for each question of the lines after the heading, in order. */
  lemma RenderTextSegments(raw: string)
    ensures var lines := NonBlankLines(raw);
            var s := SplitAtHeading(lines);
            var r := RenderText(raw);
            s.Segments? ==>
              && r.WithFollowups?
              && r.heading == HeadingLabel(s.heading)
              && (r.preText.None? <==> IsHeading(lines[0]))
              && (r.preText.Some? ==> Split(r.preText.value, '\n') == s.before)
              && (r.preText.Some? ==> forall k :: 0 <= k < |s.before| ==> IsNonBlank(s.before[k]))
              && (r.preText.Some? ==> r.preText.value == Join(s.before, '\n'))
              && r.buttons == Buttons(Questions(s.after))
  {
    var lines := NonBlankLines(raw);
    var s := SplitAtHeading(lines);
    if s.Segments? {
      RenderFromSegments(raw, s.before, s.heading, s.after);
      BeforeHeading(lines);
      if s.before != [] {
        SplitJoin(s.before, '\n');
      }
    }
  }

  /** The lines before the heading: none exactly when the first line is the
      heading, and, when the lines are non-blank and newline-free, so are
      they. */
  lemma BeforeHeading(lines: seq<string>)
    ensures var s := SplitAtHeading(lines);
            s.Segments? ==>
              && (s.before == [] <==> IsHeading(lines[0]))
              && ((forall k :: 0 <= k < |lines| ==> IsNonBlank(lines[k]) && '\n' !in lines[k]) ==>
                    forall k :: 0 <= k < |s.before| ==> IsNonBlank(s.before[k]) && '\n' !in s.before[k])
  {
    var s := SplitAtHeading(lines);
    if s.Segments? {
      assert lines[0] == (s.before + [s.heading] + s.after)[0];
      if s.before != [] {
        assert lines[0] == s.before[0];
      }
      forall k | 0 <= k < |s.before| ensures s.before[k] == lines[k] {
        assert s.before[k] == (s.before + [s.heading] + s.after)[k];
      }
    }
  }

  /** The view for given segments: once the lines are cut at the heading
      into `before`, `heading` and `after`, the view shows the cleaned
      heading, exactly the buttons of the questions of `after`, and the
      lines of `before` joined by newlines, omitted when there are none. */
  lemma RenderFromSegments(raw: string, before: seq<string>, heading: string, after: seq<string>)
    ensures var r := RenderText(raw);
            SplitAtHeading(NonBlankLines(raw)) == Segments(before, heading, after) ==>
              && r.WithFollowups?
              && r.heading == HeadingLabel(heading)
              && r.buttons == Buttons(Questions(after))
              && (before == [] ==> r.preText.None?)
              && (before != [] ==> r.preText == Some(Join(before, '\n')))
  {
  }

  /** A heading line never opens with an ordinal marker, so its question form
      is the line trimmed. */
  lemma HeadingHasNoMarker(line: string)
    requires IsHeading(line)
    ensures StripMarker(line) == line
    ensures CleanQuestion(line) == Trim(line) && Trim(line) != []
  {
  }

  /** Only the first heading line counts: a later line that also starts with
      the phrase is kept among the question lines and becomes a question. */
  lemma LaterHeadingBecomesQuestion(lines: seq<string>, k: nat)
    requires SplitAtHeading(lines).Segments?
    requires k < |SplitAtHeading(lines).after|
    requires IsHeading(SplitAtHeading(lines).after[k])
    ensures Trim(SplitAtHeading(lines).after[k]) in Questions(SplitAtHeading(lines).after)
  {
    HeadingHasNoMarker(SplitAtHeading(lines).after[k]);
  }
}

=== FILE: jsstring.dfy ===
/** The slice of JavaScript's string semantics the chat client relies on:
    the whitespace class shared by `String.prototype.trim` and the regular
    expression escape `\s`, `trim`, `split`/`join` on one separator, ASCII
    lower-casing, `startsWith`, decimal rendering of numbers in template
    literals, and `length` counted in UTF-16 code units. It also holds the
    character searches and the decimal parser used to state that printed
    keys and captions read back; the client itself never parses them. */
module JsString {
  import opened Wrappers

  /** The ECMAScript WhiteSpace and LineTerminator code points. Both `trim` and
      the regular-expression class `\s` use exactly this set. */
  predicate IsSpace(c: char) {
    || c == '\t' || c == '\n' || c == '\U{000B}' || c == '\U{000C}' || c == '\r' || c == ' '
    || c == '\U{00A0}' || c == '\U{1680}' || ('\U{2000}' <= c <= '\U{200A}')
    || c == '\U{2028}' || c == '\U{2029}' || c == '\U{202F}' || c == '\U{205F}'
    || c == '\U{3000}' || c == '\U{FEFF}'
  }

  predicate AllSpace(s: string) {
    forall k :: 0 <= k < |s| ==> IsSpace(s[k])
  }

  /** The regular-expression class `\d` (without the `u` flag): ASCII digits. */
  predicate IsDigit(c: char) {
    '0' <= c <= '9'
  }

  predicate AllDigits(s: string) {
    forall k :: 0 <= k < |s| ==> IsDigit(s[k])
  }

  // ---------- trim ----------

  /** The end of the whitespace run of `s` that starts at `from`. */
  function SpaceRunEnd(s: string, from: nat): (e: nat)
    requires from <= |s|
    ensures from <= e <= |s|
    ensures forall k :: from <= k < e ==> IsSpace(s[k])
    ensures e == |s| || !IsSpace(s[e])
    decreases |s| - from
  {
    if from < |s| && IsSpace(s[from]) then SpaceRunEnd(s, from + 1) else from
  }

  /** The start of the whitespace run of `s` that ends at `to`. */
  function SpaceRunStart(s: string, to: nat): (b: nat)
    requires to <= |s|
    ensures b <= to
    ensures forall k :: b <= k < to ==> IsSpace(s[k])
    ensures b == 0 || !IsSpace(s[b - 1])
  {
    if to > 0 && IsSpace(s[to - 1]) then SpaceRunStart(s, to - 1) else to
  }

  /** `trimStart`, and the trailing `\s*` of a regular expression anchored at
      the start: the result is a suffix of `s`, everything cut off is
      whitespace, and the result does not start with whitespace. */
  function TrimStart(s: string): (r: string)
    ensures |r| <= |s| && r == s[|s| - |r|..]
    ensures AllSpace(s[..|s| - |r|])
    ensures r == [] || !IsSpace(r[0])
  {
    var a := SpaceRunEnd(s, 0);
    assert AllSpace(s[..a]);
    s[a..]
  }

  /** `trimEnd`: the result is a prefix of `s`, everything cut off is
      whitespace, and the result does not end with whitespace. */
  function TrimEnd(s: string): (r: string)
    ensures |r| <= |s| && r == s[..|r|]
    ensures AllSpace(s[|r|..])
    ensures r == [] || !IsSpace(r[|r| - 1])
  {
    var b := SpaceRunStart(s, |s|);
    assert AllSpace(s[b..]) by {
      forall k | 0 <= k < |s| - b ensures IsSpace(s[b..][k]) {
        assert s[b..][k] == s[b + k];
      }
    }
    s[..b]
  }

  /** `trim`: the result is a slice of `s`, everything cut on either side is
      whitespace, and the result neither starts nor ends with whitespace. */
  function Trim(s: string): (r: string)
    ensures |r| <= |s|
    ensures r == [] || (!IsSpace(r[0]) && !IsSpace(r[|r| - 1]))
    ensures exists a :: 0 <= a && a + |r| <= |s| && r == s[a..a + |r|]
                        && AllSpace(s[..a]) && AllSpace(s[a + |r|..])
  {
    var a := SpaceRunEnd(s, 0);
    var t := s[a..];
    var b := SpaceRunStart(t, |t|);
    assert t[..b] == s[a..a + b];
    assert AllSpace(s[..a]);
    var tail := s[a + b..];
    assert AllSpace(tail) by {
      forall k | 0 <= k < |tail| ensures IsSpace(tail[k]) {
        assert tail[k] == t[b + k];
      }
    }
    t[..b]
  }

  /** A string trims to nothing exactly when it is all whitespace. */
  lemma TrimEmptyIffBlank(s: string)
    ensures Trim(s) == [] <==> AllSpace(s)
  {
  }

  /** Trimming twice is the same as trimming once. */
  lemma TrimIdempotent(s: string)
    ensures Trim(Trim(s)) == Trim(s)
  {
  }

  // ---------- split / join on one separator character ----------

  /** `s.split(sep)` for a one-character separator: always at least one piece
      (`"".split(sep)` is `[""]`), and no piece contains the separator. */
  function Split(s: string, sep: char): (r: seq<string>)
    ensures |r| >= 1
    ensures forall k :: 0 <= k < |r| ==> sep !in r[k]
  {
    if s == [] then [[]]
    else
      var rest := Split(s[1..], sep);
      if s[0] == sep then [[]] + rest
      else [[s[0]] + rest[0]] + rest[1..]
  }

  /** `xs.join(sep)`: the pieces with one separator between neighbours. The
      result opens with the first piece, and a
      separator-free result comes from at most one separator-free piece;
      `SplitJoin` and `JoinSplit` make it the inverse of `Split`. */
  function Join(xs: seq<string>, sep: char): (r: string)
    ensures xs == [] ==> r == []
    ensures |xs| >= 1 ==> |xs[0]| <= |r| && r[..|xs[0]|] == xs[0]
    ensures sep !in r ==> |xs| <= 1
  {
    if |xs| == 0 then []
    else if |xs| == 1 then xs[0]
    else xs[0] + [sep] + Join(xs[1..], sep)
  }

  /** Joining the pieces of a split gives back the original string. */
  lemma {:induction false} JoinSplit(s: string, sep: char)
    ensures Join(Split(s, sep), sep) == s
  {
    if s != [] {
      var rest := Split(s[1..], sep);
      JoinSplit(s[1..], sep);
      if s[0] == sep {
        assert ([[]] + rest)[1..] == rest;
      } else {
        var r := [[s[0]] + rest[0]] + rest[1..];
        if |rest| == 1 {
          assert Join(r, sep) == [s[0]] + rest[0];
        } else {
          assert r[1..] == rest[1..];
          assert Join(r, sep) == ([s[0]] + rest[0]) + [sep] + Join(rest[1..], sep);
          assert Join(rest, sep) == rest[0] + [sep] + Join(rest[1..], sep);
        }
        assert s == [s[0]] + s[1..];
      }
    }
  }

  lemma {:induction false} SplitNoSep(a: string, sep: char)
    requires sep !in a
    ensures Split(a, sep) == [a]
  {
    if a != [] {
      SplitNoSep(a[1..], sep);
      assert [a[0]] + a[1..] == a;
    }
  }

  lemma {:induction false} SplitAfterPiece(a: string, b: string, sep: char)
    requires sep !in a
    ensures Split(a + [sep] + b, sep) == [a] + Split(b, sep)
  {
    var s := a + [sep] + b;
    if a == [] {
      assert s[1..] == b;
    } else {
      assert s[1..] == a[1..] + [sep] + b;
      SplitAfterPiece(a[1..], b, sep);
      assert [a[0]] + a[1..] == a;
    }
  }

  /** Splitting a join of separator-free pieces gives back the pieces. At
      least one piece is needed, since `"".split(sep)` is `[""]`, not `[]`. */
  lemma {:induction false} SplitJoin(xs: seq<string>, sep: char)
    requires |xs| >= 1
    requires forall k :: 0 <= k < |xs| ==> sep !in xs[k]
    ensures Split(Join(xs, sep), sep) == xs
  {
    if |xs| == 1 {
      SplitNoSep(xs[0], sep);
    } else {
      SplitJoin(xs[1..], sep);
      SplitAfterPiece(xs[0], Join(xs[1..], sep), sep);
      assert [xs[0]] + xs[1..] == xs;
    }
  }

  /** A join of non-empty pieces is empty only when there are no pieces. */
  lemma JoinEmpty(xs: seq<string>, sep: char)
    requires forall k :: 0 <= k < |xs| ==> xs[k] != []
    ensures Join(xs, sep) == [] <==> xs == []
  {
  }

  // ---------- case, prefixes, search ----------

  /** Lower-cases the ASCII letters `A`-`Z` and leaves every other character alone. */
  function LowerChar(c: char): (r: char)
    ensures 'A' <= c <= 'Z' ==> r as int == c as int + 32
    ensures !('A' <= c <= 'Z') ==> r == c
  {
    if 'A' <= c <= 'Z' then (c as int + 32) as char else c
  }

  /** `toLowerCase`, restricted to ASCII letters. */
  function LowerAscii(s: string): (r: string)
    ensures |r| == |s|
    ensures forall k :: 0 <= k < |s| ==> r[k] == LowerChar(s[k])
  {
    seq(|s|, k requires 0 <= k < |s| => LowerChar(s[k]))
  }

  /** `s.startsWith(prefix)`: `s` is `prefix` followed by the rest of `s`. */
  predicate StartsWith(s: string, prefix: string)
    ensures StartsWith(s, prefix) ==> |prefix| <= |s| && s == prefix + s[|prefix|..]
  {
    |prefix| <= |s| && s[..|prefix|] == prefix
  }

  /** Conversely, `prefix + t` always starts with `prefix`. */
  lemma StartsWithAppend(prefix: string, t: string)
    ensures StartsWith(prefix + t, prefix)
  {
    assert (prefix + t)[..|prefix|] == prefix;
  }

  /** The first position of `c` in `s`, if any. A specification helper: it
      reads a button caption back into its number and question. */
  function IndexOf(s: string, c: char): (r: Option<nat>)
    ensures r.None? <==> c !in s
    ensures r.Some? ==> r.value < |s| && s[r.value] == c && c !in s[..r.value]
  {
    if s == [] then None
    else if s[0] == c then Some(0)
    else
      match IndexOf(s[1..], c)
      case None => None
      case Some(i) =>
        assert s[..i + 1] == [s[0]] + s[1..][..i];
        Some(i + 1)
  }

  /** The last position of `c` in `s`, if any. A specification helper: it
      reads a duration key back into its message id and index. */
  function LastIndexOf(s: string, c: char): (r: Option<nat>)
    ensures r.None? <==> c !in s
    ensures r.Some? ==> r.value < |s| && s[r.value] == c && c !in s[r.value + 1..]
  {
    if s == [] then None
    else if s[|s| - 1] == c then Some(|s| - 1)
    else
      var r := LastIndexOf(s[..|s| - 1], c);
      assert r.Some? ==> s[r.value + 1..] == s[..|s| - 1][r.value + 1..] + [s[|s| - 1]];
      assert forall x :: x in s <==> x in s[..|s| - 1] || x == s[|s| - 1];
      r
  }

  /** The last `c` of `a + [c] + b` is the one between the pieces when `b`
      holds no `c`. */
  lemma {:induction false} LastIndexOfAfter(a: string, c: char, b: string)
    requires c !in b
    ensures LastIndexOf(a + [c] + b, c) == Some(|a|)
  {
    if b != [] {
      var s := a + [c] + b;
      assert s[..|s| - 1] == a + [c] + b[..|b| - 1];
      LastIndexOfAfter(a, c, b[..|b| - 1]);
    }
  }

  // ---------- numbers in template literals ----------

  function DigitChar(d: nat): (c: char)
    requires d < 10
    ensures IsDigit(c)
  {
    ('0' as int + d) as char
  }

  function DigitValue(c: char): (d: nat)
    requires IsDigit(c)
    ensures d < 10
  {
    c as int - '0' as int
  }

  /** `${n}` for a non-negative integer: its decimal digits, with no leading
      zero except for `0` itself. */
  function NatToString(n: nat): (r: string)
    ensures |r| >= 1 && AllDigits(r)
    ensures r[0] == '0' <==> n == 0
  {
    if n < 10 then [DigitChar(n)]
    else
      var r := NatToString(n / 10) + [DigitChar(n % 10)];
      assert r[0] == NatToString(n / 10)[0];
      r
  }

  /** Reads a string of decimal digits as a number (the inverse of `NatToString`). */
  function ParseNat(s: string): nat
    requires AllDigits(s)
  {
    if s == [] then 0
    else 10 * ParseNat(s[..|s| - 1]) + DigitValue(s[|s| - 1])
  }

  lemma {:induction false} ParseNatToString(n: nat)
    ensures ParseNat(NatToString(n)) == n
  {
    if n >= 10 {
      var s := NatToString(n);
      assert s[..|s| - 1] == NatToString(n / 10);
      ParseNatToString(n / 10);
    }
  }

  // ---------- length ----------

  /** `s.length`: JavaScript counts UTF-16 code units, so a character outside
      the Basic Multilingual Plane counts twice. */
  function JsLength(s: string): (n: nat)
    ensures |s| <= n <= 2 * |s|
  {
    if s == [] then 0
    else (if s[0] as int > 0xFFFF then 2 else 1) + JsLength(s[1..])
  }

  lemma {:induction false} JsLengthBounds(s: string)
    ensures |s| <= JsLength(s) <= 2 * |s|
    ensures JsLength(s) == 0 <==> s == []
    ensures (forall k :: 0 <= k < |s| ==> s[k] as int <= 0xFFFF) ==> JsLength(s) == |s|
  {
    if s != [] {
      JsLengthBounds(s[1..]);
    }
  }
}

=== FILE: seqs.dfy ===
/** The two array combinators the source chains together, `filter` and `map`,
    over Dafny sequences. */
module Seqs {

  /** `xs.filter(p)`: the elements of `xs` satisfying `p`, in their original order. */
  function Filter<T>(xs: seq<T>, p: T -> bool): (r: seq<T>)
    ensures |r| <= |xs|
    ensures forall k :: 0 <= k < |r| ==> p(r[k])
    ensures forall k :: 0 <= k < |r| ==> r[k] in xs
    ensures forall k :: 0 <= k < |xs| && p(xs[k]) ==> xs[k] in r
  {
    if xs == [] then []
    else
      var rest := Filter(xs[1..], p);
      assert forall k :: 1 <= k < |xs| ==> xs[k] == xs[1..][k - 1];
      if p(xs[0]) then [xs[0]] + rest else rest
  }

  /** Filtering distributes over concatenation: together with the one-element
      case below, this pins down that `Filter` keeps the surviving elements in
      their original order. */
  lemma {:induction false} FilterConcat<T>(a: seq<T>, b: seq<T>, p: T -> bool)
    ensures Filter(a + b, p) == Filter(a, p) + Filter(b, p)
  {
    if a == [] {
      assert a + b == b;
    } else {
      assert (a + b)[1..] == a[1..] + b;
      FilterConcat(a[1..], b, p);
    }
  }

  /** Filtering a single element keeps it exactly when it satisfies `p`. */
  lemma FilterSingleton<T>(x: T, p: T -> bool)
    ensures Filter([x], p) == if p(x) then [x] else []
  {
  }

  /** Filtering keeps everything when every element passes. */
  lemma {:induction false} FilterAll<T>(xs: seq<T>, p: T -> bool)
    requires forall k :: 0 <= k < |xs| ==> p(xs[k])
    ensures Filter(xs, p) == xs
  {
    if xs != [] {
      FilterAll(xs[1..], p);
    }
  }

  /** `xs.map(f)`. */
  function Map<T, U>(xs: seq<T>, f: T -> U): (r: seq<U>)
    ensures |r| == |xs|
    ensures forall k :: 0 <= k < |xs| ==> r[k] == f(xs[k])
  {
    seq(|xs|, k requires 0 <= k < |xs| => f(xs[k]))
  }

  lemma MapConcat<T, U>(a: seq<T>, b: seq<T>, f: T -> U)
    ensures Map(a + b, f) == Map(a, f) + Map(b, f)
  {
  }
}

=== FILE: storage.dfy ===
/** The persistence adapter: the conversation snapshot kept in the browser's
    local storage under one fixed key, read back leniently and written
    best-effort. */
module Storage {
  import opened Wrappers
  import opened ChatTypes

  const STORAGE_KEY: string := "chat-messages"

  /** What an item of local storage holds, as seen through `JSON.parse`.
      `Empty` is the empty string (falsy, so treated like a missing item).
      `Malformed` is text that `JSON.parse` rejects, or that parses to `null`
      so that reading a field of it throws. `Json` is a parsed object, each
      field `None` when absent or falsy; `[]` and `{}` are truthy and so
      arrive as `Some`. */
  datatype Stored =
    | Empty
    | Malformed
    | Json(messages: Option<seq<Message>>, durations: Option<map<string, int>>)

  /** `localStorage`: a missing key is an item `getItem` returns `null` for. */
  type LocalStorage = map<string, Stored>

  /** The persisted unit: the message list and the duration table. */
  datatype Snapshot = Snapshot(messages: seq<Message>, durations: map<string, int>)

  const EMPTY_SNAPSHOT: Snapshot := Snapshot([], map[])

  /** `loadMessagesFromStorage`. `readFails` stands for `getItem` throwing
      (storage access denied, or `localStorage` being `null`): the failure
      is caught like a parse error. Outside a browser, on a failed read,
      with no item, an empty item or one that does not parse, the result is
      the empty snapshot; a parsed item supplies each field it has and the
      field's empty value for each it lacks, independently of the other.
      Every input has a result: the function never fails. */
  function Load(inBrowser: bool, readFails: bool, storage: LocalStorage): (r: Snapshot)
    ensures !inBrowser || readFails || STORAGE_KEY !in storage ==> r == EMPTY_SNAPSHOT
    ensures inBrowser && STORAGE_KEY in storage && !storage[STORAGE_KEY].Json? ==> r == EMPTY_SNAPSHOT
    ensures inBrowser && !readFails && STORAGE_KEY in storage && storage[STORAGE_KEY].Json? ==>
              var item := storage[STORAGE_KEY];
              && (item.messages.Some? ==> r.messages == item.messages.value)
              && (item.messages.None? ==> r.messages == [])
              && (item.durations.Some? ==> r.durations == item.durations.value)
              && (item.durations.None? ==> r.durations == map[])
  {
    if !inBrowser || readFails || STORAGE_KEY !in storage then EMPTY_SNAPSHOT
    else
      match storage[STORAGE_KEY]
      case Empty => EMPTY_SNAPSHOT
      case Malformed => EMPTY_SNAPSHOT
      case Json(messages, durations) => Snapshot(messages.GetOr([]), durations.GetOr(map[]))
  }

  /** `saveMessagesToStorage`. `writeFails` stands for `setItem` throwing (a
      full quota, say): the failure is swallowed and the storage is left as
      it was. Outside a browser nothing is written. A successful write
      replaces the one item and touches no other key. */
  function Save(inBrowser: bool, storage: LocalStorage, messages: seq<Message>,
                durations: map<string, int>, writeFails: bool): (r: LocalStorage)
    ensures !inBrowser || writeFails ==> r == storage
    ensures inBrowser && !writeFails ==> STORAGE_KEY in r && r[STORAGE_KEY] == Json(Some(messages), Some(durations))
    ensures r.Keys - {STORAGE_KEY} == storage.Keys - {STORAGE_KEY}
    ensures forall k :: k in storage && k != STORAGE_KEY ==> k in r && r[k] == storage[k]
  {
    if !inBrowser || writeFails then storage
    else storage[STORAGE_KEY := Json(Some(messages), Some(durations))]
  }

  /** Write-through consistency: a successful save followed by a load gives
      back exactly what was saved, the empty conversation included. */
  lemma SaveThenLoad(storage: LocalStorage, messages: seq<Message>, durations: map<string, int>)
    ensures Load(true, false, Save(true, storage, messages, durations, false)) == Snapshot(messages, durations)
  {
  }

  /** A failed or out-of-browser save changes nothing a later load can see. */
  lemma FailedSaveIsInvisible(inBrowser: bool, readFails: bool, storage: LocalStorage,
                              messages: seq<Message>, durations: map<string, int>, writeFails: bool)
    requires !inBrowser || writeFails
    ensures Load(inBrowser, readFails, Save(inBrowser, storage, messages, durations, writeFails))
            == Load(inBrowser, readFails, storage)
  {
  }

  /** A read that throws is indistinguishable from a storage without the
      item: both load as the empty snapshot, whatever the item holds. */
  lemma FailedReadIsMissingItem(storage: LocalStorage)
    ensures Load(true, true, storage) == Load(true, false, storage - {STORAGE_KEY})
  {
  }
}

=== FILE: wrappers.dfy ===
/** The optional-value datatype shared by every module of the model: it stands
    for JavaScript's `undefined`/`null` on one side and a present value on the
    other. */
module Wrappers {

  datatype Option<+T> = None | Some(value: T) {

    /** Returns the value inside Some, or `default` for None (the `??` / `||`
        fallback of the source). */
    function GetOr(default: T): T {
      match this
      case Some(v) => v
      case None => default
    }
  }
}
